=== FILE: README.md ===
# Hidden-treasure front end: scan gating, cooldown, toasts, cameras, routing and leaderboard rules

This project models the decision rules inside the page components of the
hidden-treasure event front end: a React app in which participants register by
scanning their QR code, scan treasure codes, and watch a rolling leaderboard,
while a "catcher" scans participants to tag them. Those rules are pulled out as
pure Dafny functions over an integer millisecond clock.

- **Throttle** (`gate.dfy`): a decode leads to a request only when at least an
  interval has passed since the last request. The interval is 2000 ms on the
  catcher page, 5000 ms on the treasure page and 3000 ms on the connect page.
  The timestamp is stamped before the request is sent.
- **Countdown** (`cooldown.dfy`): the catcher's 15-second cooldown. A
  one-second interval counts it down and clears itself at zero.
- **Timers** and **Toasts** (`timers.dfy`, `toast.dfy`): a timer handle kept in
  a ref, together with the set of handles still scheduled. A toast shows one
  message, and the latest one wins.
- **Camera** (`camera.dfy`): picks the default device (rear-facing label, else
  the last device), initialises scanning, and switches round-robin. The module
  is shared by the three scanner pages.
- **Page modules**: `CatcherPage`, `TreasurePage`, `ConnectPage`, `NamePage`
  and `RankingPage`. Each holds the page's state record, the handling of a
  decode, the handling of each response, and its entry redirect.
- **Shared modules**: `Text` (JavaScript `trim`, lower-casing, `includes`,
  decimal rendering), `Api` (responses), `Nav` (routes and `location.state`)
  and `Flows` (how one page's routing meets the next page's entry check).

Timers, the camera library and HTTP are not executed. They appear as explicit
inputs: the clock time `now`, tick and advance events, a `Camera.Outcome` for
each library call, and an `Api.Response` for each request.

## Model

| member | source | states |
|---|---|---|
| `Text.TrimStart` | src/components/NamePage.jsx:31 | the result is a suffix of the input, everything dropped is whitespace, and it does not start with whitespace |
| `Text.TrimEnd` | src/components/NamePage.jsx:48 | the result is a prefix of the input, everything dropped is whitespace, and it does not end with whitespace |
| `Text.Trim` | src/components/UserConnectPage.jsx:64 | the trimmed name is a slice of the input with only whitespace cut off either side, and neither starts nor ends with whitespace |
| `Text.BlankIffAllWhitespace` | src/components/NamePage.jsx:31-34 | a name is rejected as blank exactly when every character in it is whitespace |
| `Text.TrimIdempotent` | src/components/NamePage.jsx:48 | trimming the already-trimmed name sent to the server changes nothing |
| `Text.LowerChar` | src/components/CatcherPage.jsx:112 | each upper-case ASCII letter becomes its own lower-case letter, and every other character is kept |
| `Text.ToLower` | src/components/QRScanPage.jsx:119 | the lower-cased label has the same length and is lowered position by position |
| `Text.ToLowerIdempotent` | src/components/UserConnectPage.jsx:78 | lower-casing an already lower-cased label changes nothing |
| `Text.Contains` | src/components/CatcherPage.jsx:113-116 | `includes` holds exactly when the keyword occurs at some position of the label |
| `Text.NatToString` | src/components/CatcherPage.jsx:102 | a count is rendered as a non-empty string of decimal digits with no leading zero, one digit exactly when it is below 10 |
| `Text.ParseNatToString` | src/components/RankingPage.jsx:40 | reading the decimal rendering back gives the number, so the rendering loses nothing |
| `Text.NatToStringInjective` | src/components/RankingPage.jsx:40 | different ids render as different strings |
| `Timers.Cancel` | src/components/QRScanPage.jsx:241-245 | clearing the ref's timer without nulling the ref leaves nothing scheduled |
| `Timers.Clear` | src/components/CatcherPage.jsx:51-53 | clearing and nulling the ref leaves no handle and nothing scheduled |
| `Timers.Arm` | src/components/CatcherPage.jsx:26-36 | arming clears the previous timer, so the new handle is the only one scheduled, due at the given time, and differs from the old one |
| `Timers.AtMostOnePending` | src/components/CatcherPage.jsx:43-49 | because each ref is cleared before it is re-armed, at most one callback per ref is ever pending |
| `Toasts.Show` | src/components/CatcherPage.jsx:25-37 | the new message becomes visible, with one dismissal pending, due `duration` ms from now |
| `Toasts.Advance` | src/components/QRScanPage.jsx:44-47 | a due dismissal hides the toast; otherwise visibility is unchanged, and the message is kept |
| `Toasts.DismissedStaysDismissed` | src/components/UserConnectPage.jsx:31-34 | once hidden, no later clock advance changes the toast, so a dismissal fires at most once |
| `Toasts.LastWriteWins` | src/components/QRScanPage.jsx:36-48 | after two messages, any sample shows the second one, visible exactly until its own dismissal time, whatever the first one's duration |
| `Throttle.Offer` | src/components/QRScanPage.jsx:79-85 | an admitted decode stamps `now`, a throttled one leaves the stamp unchanged, and a stamp only ever moves forward by at least the interval |
| `Throttle.AdmittedSpaced` | src/components/UserConnectPage.jsx:41-47 | in any run of decodes, each admitted decode comes at least the interval after the previous admitted one |
| `Throttle.AfterStampsLastAdmitted` | src/components/CatcherPage.jsx:70-76 | after a run of decodes the stamp is the last admitted time, or the old stamp when nothing was admitted |
| `Countdown.Start` | src/components/CatcherPage.jsx:40-49 | starting sets the count to 15, active, with exactly one interval scheduled; any earlier interval is cleared |
| `Countdown.Tick` | src/components/CatcherPage.jsx:49-58 | a tick takes one off a count above 1 and sets 0 otherwise; with no interval scheduled nothing happens; the state stays well formed |
| `Countdown.TicksCount` | src/components/CatcherPage.jsx:50-57 | k ticks take k off the count, stopping at 0 and never going below it |
| `Countdown.CountdownFromStart` | src/components/CatcherPage.jsx:40-58 | from a fresh start the count reads 15 - k after k ticks and reaches 0, with the interval cleared, at exactly the 15th tick |
| `Camera.IsRear` | src/components/CatcherPage.jsx:111-116 | a device counts as rear-facing exactly when its lower-cased label contains one of "back", "rear", "환경" or "후면" |
| `Camera.RearIgnoresCase` | src/components/CatcherPage.jsx:112 | a label and its lower-cased form are judged alike |
| `Camera.BackCameraIsRear` | src/components/CatcherPage.jsx:111-116 | the labels "Back Camera" and "후면 카메라" are rear-facing |
| `Camera.FirstRear` | src/components/CatcherPage.jsx:111-117 | the index found is the first device with a rear-facing label, or the list length when there is none |
| `Camera.FindRearCamera` | src/components/CatcherPage.jsx:110-119 | the default is the first rear-facing device if any, else the last device; there is none only for an empty list |
| `Seqs.FirstIndex` | src/components/CatcherPage.jsx:124 | `findIndex` gives the first position whose element satisfies the test, or -1 when none does |
| `Camera.FindIndex` | src/components/CatcherPage.jsx:124 | the index is the first device with the current id, or -1 when no device has it |
| `Camera.NextIndex` | src/components/CatcherPage.jsx:125 | the next index is always a valid index into the camera list |
| `Camera.Initialize` | src/components/QRScanPage.jsx:174-209 | scanning starts exactly when the reader element exists, the listing succeeds, the list is non-empty and start succeeds, on the default device; an empty list leaves the "no camera" error and nothing started; whenever the result is streaming, its current device is one of the listed devices |
| `Camera.SwitchCamera` | src/components/CatcherPage.jsx:121-147 | fewer than two cameras leaves everything unchanged; success moves to the next camera; a failed stop or start keeps the current camera and sets the switch-failure error; a streaming camera that was one of the listed devices still is after the switch |
| `Camera.RoundRobin` | src/components/UserConnectPage.jsx:90-92 | with distinct ids the camera after device k is device k+1, and after the last it is the first |
| `Camera.UnknownSwitchesToFirst` | src/components/QRScanPage.jsx:131-132 | a current id that matches no device (including none yet) switches to the first device |
| `Camera.SwitchStep` | src/components/CatcherPage.jsx:124-143 | with at least two devices and distinct ids, one successful switch from device j lands on device j+1, or on the first device after the last, and keeps the device list |
| `Camera.SwitchesRotate` | src/components/UserConnectPage.jsx:87-113 | with at least two devices and distinct ids, for every k, k successful switches from device i land on device (i + k) mod n and keep the device list |
| `Camera.FullCycle` | src/components/QRScanPage.jsx:128-154 | with at least two devices and distinct ids, switching once per device brings the scanner back to the camera it started on |
| `Camera.ThreeCameras` | src/components/CatcherPage.jsx:124-126 | with cameras [A, B, C], a switch from B goes to C and a switch from C goes to A |
| `Api.OrElse` | src/components/CatcherPage.jsx:89 | the server message is shown when present and non-empty, else the fallback, so a non-empty fallback always yields a non-empty text |
| `CatcherPage.Decode` | src/components/CatcherPage.jsx:65-76 | a request is sent exactly when no cooldown is active and at least 2000 ms have passed; a sent decode stamps `now`; a dropped one changes nothing |
| `CatcherPage.DecodeAsWritten` | src/components/CatcherPage.jsx:62-79 | the handler as built lets a decode through whenever the 2000 ms throttle admits it, whatever the live cooldown; a sent decode stamps `now` and sends the decoded text, and a dropped one changes nothing |
| `CatcherPage.CaughtMessage` | src/components/CatcherPage.jsx:102 | the success toast is the fixed prefix, the count's canonical decimal rendering (which reads back as the count), and the fixed suffix |
| `CatcherPage.CaughtMessageNamesCount` | src/components/CatcherPage.jsx:102 | the success toast determines the catch count it reports |
| `CatcherPage.OnFound` | src/components/CatcherPage.jsx:86-106 | an ok response starts a 15 s cooldown, records the caught user and shows the count; a non-ok or thrown one shows the server message, its fallback, or the network error, and leaves the cooldown and the last caught user alone |
| `CatcherPage.Tick` | src/components/CatcherPage.jsx:49-58 | a cooldown tick touches nothing but the cooldown and keeps the page well formed |
| `CatcherPage.Advance` | src/components/CatcherPage.jsx:33-36 | a clock advance keeps the toast's message and can only hide it, exactly when its dismissal is due; nothing else changes and the page stays well formed |
| `CatcherPage.NoRequestDuringCooldown` | src/components/CatcherPage.jsx:65-68 | for the 15 ticks after a successful catch, every decode is dropped, at any clock time |
| `CatcherPage.StaleCooldownAdmits` | src/components/CatcherPage.jsx:62-68 | as built, a decode 2000 ms after a catch, with 13 s of cooldown left, is sent; the intended gate drops it |
| `TreasurePage.Enter` | src/components/QRScanPage.jsx:8-15 | the page redirects to `/connect` exactly when `userId` is missing or 0, or `name` is missing or empty |
| `TreasurePage.Decode` | src/components/QRScanPage.jsx:79-97 | a request `{userId, treasureCode}` is sent exactly when 5000 ms have passed; it stamps `now`; a dropped decode changes nothing |
| `TreasurePage.OnFind` | src/components/QRScanPage.jsx:99-113 | only an ok find refreshes the stats; the toast shows success, the server message or its fallback, or the network error; nothing else changes |
| `TreasurePage.OnStats` | src/components/QRScanPage.jsx:51-74 | ok stores the stats and clears `noTreasure`; 404 sets `noTreasure` and drops the stats; another status changes nothing; a thrown request shows a toast |
| `TreasurePage.ClickStats` | src/components/QRScanPage.jsx:156-161 | a click fetches exactly when the panel was closed and toggles it; opening leaves one auto-close pending, due in 5000 ms |
| `TreasurePage.Advance` | src/components/QRScanPage.jsx:234-237 | the panel stays open exactly until its auto-close is due; the toast keeps its message and is hidden exactly when its dismissal is due |
| `TreasurePage.AutoClose` | src/components/QRScanPage.jsx:226-246 | a panel opened at t and left alone is open exactly until t + 5000 |
| `TreasurePage.AlreadyFound` | src/components/QRScanPage.jsx:101-104 | a 409 `{message: "already found"}` shows "already found" and does not refresh the stats |
| `ConnectPage.Decode` | src/components/UserConnectPage.jsx:41-51 | a lookup is sent exactly when 3000 ms have passed, and only a sent decode sets `isScanning` |
| `ConnectPage.Destination` | src/components/UserConnectPage.jsx:63-68 | the route is `/scan` with `{userId, name}` exactly when the name is present and not all whitespace, and otherwise `/name` with only `{userId}` |
| `ConnectPage.OnLookup` | src/components/UserConnectPage.jsx:52-72 | `isScanning` is false on every exit; ok navigates to the destination; non-ok shows the invalid-code toast and a thrown lookup the network toast, without navigating |
| `ConnectPage.Id7Routes` | src/components/UserConnectPage.jsx:64-67 | `{id: 7, name: ""}` goes to `/name` with `userId` 7, and `{id: 7, name: "Kim"}` goes to `/scan` |
| `NamePage.Enter` | src/components/NamePage.jsx:21-25 | the page redirects to `/connect` exactly when `userId` is missing or 0 |
| `NamePage.Edit` | src/components/NamePage.jsx:93-96 | typing replaces the name, clears any error and keeps the user, saving flag and route; afterwards submit is disabled exactly while saving or when the new text is all whitespace |
| `NamePage.SubmitDisabled` | src/components/NamePage.jsx:116 | submit is disabled exactly while saving or while the name is all whitespace |
| `NamePage.Submit` | src/components/NamePage.jsx:27-49 | a whitespace-only name sets the empty-name error and sends nothing; otherwise the error is cleared, `isSubmitting` is set and the non-empty trimmed name is sent |
| `NamePage.OnSaved` | src/components/NamePage.jsx:52-64 | `isSubmitting` is false after every response; ok navigates to `/scan` with the response's `{userId, name}`; failures set a non-empty error from the message or its fallback |
| `RankingPage.RowKey` | src/components/RankingPage.jsx:40 | for a single-digit copy, the key is digits reading back as the id, a hyphen, and a digit reading back as the copy |
| `RankingPage.RowKeyInjective` | src/components/RankingPage.jsx:40 | a row key determines both the user id and the copy index |
| `RankingPage.Tripled` | src/components/RankingPage.jsx:37-41 | the list has 3n rows; row i shows `rankings[i mod n]` with display rank (i mod n) + 1 in [1, n] and key `id-⌊i/n⌋`, where ⌊i/n⌋ < 3 |
| `RankingPage.Prepare` | src/components/RankingPage.jsx:33-43 | an empty ranking leaves the visible rows unchanged; otherwise the rows are the tripled list, three per user |
| `RankingPage.KeysDistinct` | src/components/RankingPage.jsx:40 | with distinct user ids, all 3n row keys are pairwise distinct |
| `RankingPage.IndexOfId` | src/components/RankingPage.jsx:48 | the index is the first previous position holding the id, or -1 when the id is absent |
| `RankingPage.Moved` | src/components/RankingPage.jsx:48-49 | a user moved exactly when their first occurrence in the previous list exists and is at a different position |
| `RankingPage.Highlighted` | src/components/RankingPage.jsx:47-49 | every highlighted position holds a user who was in the previous list at another position, and an empty previous list highlights nobody |
| `RankingPage.HighlightedIff` | src/components/RankingPage.jsx:47-49 | when the previous list has distinct ids, a user is highlighted exactly when they were in the previous list at a different position, so new and unmoved users are not |
| `RankingPage.UnchangedNotHighlighted` | src/components/RankingPage.jsx:46-57 | an unchanged list with distinct ids highlights nobody |
| `RankingPage.Podium` | src/components/RankingPage.jsx:164 | the podium is a prefix of the ranking of at most 3 users, the whole list when it is shorter |
| `RankingPage.ScoreColor` | src/components/RankingPage.jsx:254-256 | green for scores of 8 and up, yellow for 5 to 7, orange for 0 to 4, red below 0; the buckets are total and disjoint |
| `RankingPage.ScoreColorMonotone` | src/components/RankingPage.jsx:253-257 | a higher score never gets a lower colour bucket |
| `RankingPage.ScoreWidth` | src/components/RankingPage.jsx:258 | the bar width lies in [0, 100]; it is 10 × score for scores from 0 to 10, 0 below and 100 above |
| `RankingPage.ScoreWidthMonotone` | src/components/RankingPage.jsx:252-259 | a higher score never draws a shorter bar |
| `RankingPage.PodiumWidth` | src/components/RankingPage.jsx:194 | the podium bar is 2 × treasureCount up to 50 treasures and never exceeds 100 |
| `RankingPage.Poll` | src/components/RankingPage.jsx:12-22 | a fetched list replaces the ranking, the replaced list becomes the previous one, and the rows are rebuilt; a thrown fetch only ends loading |
| `RankingPage.PollAsWritten` | src/components/RankingPage.jsx:11-16 | the poll as built always stores an empty previous list, while the fetched list becomes the ranking and the rows are rebuilt from it; a thrown fetch only ends loading |
| `RankingPage.NeverHighlightsAsWritten` | src/components/RankingPage.jsx:16 | as built, after any sequence of polls the previous list is empty and nobody is ever highlighted |
| `RankingPage.SwapIsHighlighted` | src/components/RankingPage.jsx:46-57 | when two users swap places between polls, both are highlighted as intended, and neither is as built |
| `Flows.ConnectToScan` | src/components/QRScanPage.jsx:12-14 | a participant the connect page sends to `/scan` is admitted by the scan page exactly when their id is not 0 |
| `Flows.ConnectToName` | src/components/NamePage.jsx:22-24 | a participant the connect page sends to `/name` is admitted by the name page exactly when their id is not 0 |

## Left out

- The camera library (`Html5Qrcode`): construction, `getCameras`, `start`, `stop` and `isScanning` are inputs (`Camera.Listing`, `Camera.Outcome`). The fps and scan-box options are not modelled.
- The scanner pages' state records do not hold a `Camera.Camera` field. The camera rules are one shared module, and the pages' camera state would only forward to it.
- HTTP and JSON: `fetch`, `response.json()` and payload parsing are abstracted into `Api.Response`. A body that fails to parse counts as `Failed`. The leaderboard fetch never checks `response.ok`, so `RankingPage.Poll` only takes a parsed list or a thrown request (`None`). An error body stored as the ranking is not modelled.
- Real timers: `setTimeout`, `setInterval` and `requestAnimationFrame` become explicit `Advance(now)` and `Tick` events. The cooldown's one-second period is not tied to the clock.
- Countdown.Tick: fires only while the interval is scheduled. A callback running after `clearInterval` cannot happen in the browser and is not modelled.
- The `mounted` flag and the unmount cleanup (stopping the camera, clearing timers), because they are lifecycle plumbing.
- Rendering, CSS and framer-motion animations; the 500 ms fade-in timers; the leaderboard auto-scroll (RankingPage.jsx lines 60-95), which is floating-point and animation-frame arithmetic; the highlight's DOM class toggling and its 1000 ms removal timer.
- MainPage, TreasureImage, UserImage and App: particle geometry from `Math.random`, image fetch-and-display, and routing only.
- In-flight exclusion: the pages have no mutex. The only guard is the timestamp comparison, so a second decode after the interval is sent even while a request is still pending.
- Text.ToLower: lower-cases only ASCII A–Z. JavaScript's `toLowerCase` also maps other letters, for example the Kelvin sign to `k`, which could turn a label into "back".
- Text.IsWhitespace: lists the ECMAScript WhiteSpace and LineTerminator characters by code point. It does not follow future Unicode space additions.
- RankingPage.ScoreWidth: uses an integer score and exact arithmetic. The source computes `(score / 10) * 100` in floating point, which can differ in the last bit.
- RankingPage.PodiumWidth: takes `treasureCount` as a natural number. The source has no lower clamp, so a negative count would draw a negative width.
- Ids and counts are natural numbers, and row keys use their decimal rendering. Non-numeric ids from the server are not modelled.
- Text.NatToString: gives plain decimal digits for every natural number. JavaScript switches to exponent notation (`1e+21`) from 10^21, far beyond any id or count.
- Camera.SwitchCamera: on failure the contract states only that the error starts with "카메라 전환 실패: ", not which library message follows.
- The name input's `maxLength={20}` is enforced by the browser and is not modelled.
- The toast duration is a parameter, and every call site passes the default of 3000 ms.
- The treasure page's decode handler also captures the first render's `userId` and `fetchStats`. Both are fixed for the whole visit, so the model reads `userId` from the page state.
- The catcher page's cooldown gate: the comment at CatcherPage.jsx line 64 and the countdown overlay at lines 263-270 show that a decode is meant to be dropped during a cooldown. The code as written never drops one (see Findings). The model keeps both: `CatcherPage.Decode` as intended and `CatcherPage.DecodeAsWritten` as built.

## Findings

| source | as written | input that shows it | evidently intended | confidence | as-written member | corrected member |
|---|---|---|---|---|---|---|
| src/components/CatcherPage.jsx:62-68 | the decode handler is created once (`useRef(...).current`), so its `cooldown > 0` test reads the first render's value, 0, and never drops a decode | a catch at 10000 ms, two ticks later (13 s left), then a decode at 12000 ms: it is sent | no request while the countdown is above 0, as the comment on line 64 says | high; not executed | CatcherPage.StaleCooldownAdmits | CatcherPage.NoRequestDuringCooldown |
| src/components/RankingPage.jsx:11-16 | the polling callback is created on mount, so `setPrevRankings(rankings)` always stores the mount-time `[]` and the change detection on lines 46-57 never fires | polls returning [x, y] and then [y, x] | x and y are highlighted after they swap | high; not executed | RankingPage.NeverHighlightsAsWritten | RankingPage.SwapIsHighlighted |

=== FILE: api.dfy ===
/** How the pages see the HTTP API: a parsed response, a non-ok one, or a thrown error. */
module Api {

  /**
   * `Ok`: `response.ok` and the body parsed; `Rejected`: a non-ok status whose
   * body parsed, with its `message` ("" when absent); `Failed`: `fetch` or
   * `response.json()` threw, with the error's message.
   */
  datatype Response<T> = Ok(body: T) | Rejected(status: int, message: string) | Failed(reason: string)

  /** The toast every scanner page shows when a request throws. */
  const NetworkError: string := "네트워크 오류가 발생했습니다. 다시 시도해주세요."

  /** The toast shown for a non-ok response that carries no message. */
  const GenericError: string := "오류가 발생했습니다."

  /** `message || fallback`: the empty string counts as absent. */
  function OrElse(message: string, fallback: string): (r: string)
    ensures r == message || r == fallback
    ensures fallback != "" ==> r != ""
    ensures message != "" ==> r == message
  {
    if message != "" then message else fallback
  }
}

=== FILE: arith.dfy ===
/** Facts about Euclidean division used by the wrap-around arguments. */
module Arith {

  /** A positive multiple of `n` is at least `n`. */
  lemma MulGrows(d: nat, n: nat)
    requires d > 0
    ensures d * n >= n
  {
  }

  /** Numbers in different blocks of `n` differ by more than a remainder. */
  lemma BlocksApart(lo: int, hi: int, n: int, a: int, b: int)
    requires n > 0 && lo < hi && 0 <= a < n && 0 <= b < n
    ensures lo * n + a != hi * n + b
  {
    MulGrows(hi - lo, n);
    assert (hi - lo) * n == hi * n - lo * n;
  }

  /** `q` and `r` are the quotient and remainder of `x` by `n` whenever `x == q * n + r` with `0 <= r < n`. */
  lemma DivModUnique(x: int, n: int, q: int, r: int)
    requires n > 0 && 0 <= r < n && x == q * n + r
    ensures x % n == r && x / n == q
  {
    var q0, r0 := x / n, x % n;
    assert x == q0 * n + r0 && 0 <= r0 < n;
    if q0 < q {
      BlocksApart(q0, q, n, r0, r);
    } else if q < q0 {
      BlocksApart(q, q0, n, r, r0);
    }
  }

  /** Counting modulo `n`: one more is the next residue, wrapping from `n - 1` to 0. */
  lemma ModSucc(x: nat, n: nat)
    requires n > 0
    ensures (x + 1) % n == if x % n + 1 < n then x % n + 1 else 0
  {
    var q, r := x / n, x % n;
    assert x == q * n + r && 0 <= r < n;
    if r + 1 < n {
      DivModUnique(x + 1, n, q, r + 1);
    } else {
      assert x + 1 == (q + 1) * n + 0;
      DivModUnique(x + 1, n, q + 1, 0);
    }
  }
}

=== FILE: base.dfy ===
/** Small value types shared by every page model. */
module Base {

  /** A value that may be absent (JavaScript's `null` / `undefined`). */
  datatype Option<+T> = None | Some(value: T) {

    /** The carried value, or `default` when absent. */
    function GetOr(default: T): T {
      match this
      case Some(v) => v
      case None => default
    }
  }
}

=== FILE: camera.dfy ===
/**
 * Camera handling shared by the three scanner pages: choosing the default
 * device (`findRearCamera`), starting it at initialisation, and round-robin
 * switching (`handleCameraSwitch`). The camera library itself is abstract: its
 * device list and the success or failure of each `start` / `stop` are inputs.
 */
module Camera {
  import opened Base
  import opened Text
  import opened Seqs
  import Arith

  /** A listed device; a device without a label has the empty label. */
  datatype Device = Device(id: string, labelText: string)

  /** The result of one camera-library call (`start` or `stop`). */
  datatype Outcome = Done | Failed(message: string)

  /** The result of `Html5Qrcode.getCameras()`. */
  datatype Listing = Listed(devices: seq<Device>) | ListFailed(message: string)

  /**
   * `devices`: the `cameras` state; `current`: `currentCamera`; `streaming`: the
   * library's `isScanning`; `error`: the error panel's text ("" when hidden).
   */
  datatype Camera = Camera(devices: seq<Device>, current: Option<string>, streaming: bool, error: string)

  /** A camera that is streaming is one of the listed devices. */
  predicate Valid(c: Camera) {
    c.streaming ==> c.current.Some? && exists i :: 0 <= i < |c.devices| && c.devices[i].id == c.current.value
  }

  /** The state as first rendered. */
  const Unstarted: Camera := Camera([], None, false, "")

  const ReaderMissing: string := "QR 스캐너 요소를 찾을 수 없습니다."
  const NoCamera: string := "사용 가능한 카메라가 없습니다."
  const SwitchFailedPrefix: string := "카메라 전환 실패: "

  /** The words whose presence in a lower-cased label marks a rear-facing camera. */
  const RearWords: seq<string> := ["back", "rear", "환경", "후면"]

  /** The lower-cased label contains one of the rear-facing words. */
  function IsRear(d: Device): (r: bool)
    ensures r <==> exists w, i :: w in RearWords && OccursAt(ToLower(d.labelText), w, i)
  {
    var lower := ToLower(d.labelText);
    Contains(lower, "back") || Contains(lower, "rear") || Contains(lower, "환경") || Contains(lower, "후면")
  }

  /** The test ignores ASCII case: a label and its lower-cased form are judged alike. */
  lemma RearIgnoresCase(id: string, labelText: string)
    ensures IsRear(Device(id, labelText)) <==> IsRear(Device(id, ToLower(labelText)))
  {
    ToLowerIdempotent(labelText);
  }

  /** Labels such as "Back Camera" and "후면 카메라" mark rear-facing devices. */
  lemma BackCameraIsRear()
    ensures IsRear(Device("0", "Back Camera"))
    ensures IsRear(Device("1", "후면 카메라"))
  {
    assert OccursAt(ToLower("Back Camera"), "back", 0);
    assert OccursAt(ToLower("후면 카메라"), "후면", 0);
  }

  /** The index of the first rear-facing device, or `|ds|` when there is none (`devices.find`). */
  function FirstRear(ds: seq<Device>): (i: nat)
    ensures i <= |ds|
    ensures forall j :: 0 <= j < i ==> !IsRear(ds[j])
    ensures i < |ds| ==> IsRear(ds[i])
  {
    if ds == [] then 0
    else if IsRear(ds[0]) then 0
    else 1 + FirstRear(ds[1..])
  }

  /** `findRearCamera(devices)`: the first rear-facing device, else the last device; nothing for an empty list. */
  function FindRearCamera(ds: seq<Device>): (r: Option<Device>)
    ensures r.None? <==> ds == []
    ensures (exists i :: 0 <= i < |ds| && IsRear(ds[i])) ==>
              exists k :: 0 <= k < |ds| && r == Some(ds[k]) && IsRear(ds[k]) && forall j :: 0 <= j < k ==> !IsRear(ds[j])
    ensures ds != [] && (forall i :: 0 <= i < |ds| ==> !IsRear(ds[i])) ==> r == Some(ds[|ds| - 1])
  {
    if ds == [] then None
    else
      var i := FirstRear(ds);
      if i < |ds| then Some(ds[i]) else Some(ds[|ds| - 1])
  }

  /** The position of the current device in the list, or -1 when it is not listed. */
  function FindIndex(ds: seq<Device>, current: Option<string>): (r: int)
    ensures -1 <= r < |ds|
    ensures r >= 0 ==> current == Some(ds[r].id)
    ensures forall j :: 0 <= j < |ds| && (r == -1 || j < r) ==> current != Some(ds[j].id)
  {
    FirstIndex(ds, (d: Device) => Some(d.id) == current)
  }

  /** The position after the current device's, wrapping to the first; an unlisted current device counts as position -1. */
  function NextIndex(ds: seq<Device>, current: Option<string>): (r: nat)
    requires ds != []
    ensures r < |ds|
  {
    (FindIndex(ds, current) + 1) % |ds|
  }

  /** No two devices share an id. */
  predicate DistinctIds(ds: seq<Device>) {
    DistinctKeys(ds, DeviceId)
  }

  /** The key devices are told apart by. */
  function DeviceId(d: Device): string {
    d.id
  }

  /**
   * The camera initialisation effect: the reader element must exist, the listing
   * must succeed and be non-empty, then the default device is started.
   */
  function Initialize(readerPresent: bool, listing: Listing, start: Outcome): (r: Camera)
    ensures r.streaming <==> readerPresent && listing.Listed? && listing.devices != [] && start.Done?
    ensures r.streaming ==> r.current == Some(FindRearCamera(listing.devices).value.id) && r.error == ""
    ensures !r.streaming ==> r.current.None?
    ensures !readerPresent ==> r.error == ReaderMissing
    ensures readerPresent && listing.ListFailed? ==> r.error == listing.message && r.devices == []
    ensures readerPresent && listing.Listed? && listing.devices != [] && start.Failed? ==> r.error == start.message
    ensures readerPresent && listing == Listed([]) ==> r.error == NoCamera && r.devices == []
    ensures readerPresent && listing.Listed? && listing.devices != [] ==> r.devices == listing.devices
    ensures Valid(r)
  {
    if !readerPresent then Unstarted.(error := ReaderMissing)
    else match listing
      case ListFailed(m) => Unstarted.(error := m)
      case Listed(ds) =>
        if ds == [] then Unstarted.(error := NoCamera)
        else
          var chosen := FindRearCamera(ds).value;
          match start
          case Failed(m) => Unstarted.(devices := ds, error := m)
          case Done => Camera(ds, Some(chosen.id), true, "")
  }

  /** The library calls of a switch both succeed (`stop` is only called while streaming). */
  predicate SwitchSucceeds(c: Camera, stop: Outcome, start: Outcome) {
    (!c.streaming || stop.Done?) && start.Done?
  }

  /** The switch button's handler: stop the running device, then start the next one in the list. */
  function SwitchCamera(c: Camera, stop: Outcome, start: Outcome): (r: Camera)
    ensures |c.devices| < 2 ==> r == c
    ensures r.devices == c.devices
    ensures |c.devices| >= 2 && SwitchSucceeds(c, stop, start) ==>
              r.current == Some(c.devices[NextIndex(c.devices, c.current)].id) && r.streaming && r.error == c.error
    ensures |c.devices| >= 2 && !SwitchSucceeds(c, stop, start) ==>
              r.current == c.current && SwitchFailedPrefix <= r.error
    ensures Valid(c) ==> Valid(r)
  {
    if |c.devices| < 2 then c
    else
      var next := c.devices[NextIndex(c.devices, c.current)];
      if c.streaming && stop.Failed? then c.(error := SwitchFailedPrefix + stop.message)
      else if start.Failed? then c.(streaming := false, error := SwitchFailedPrefix + start.message)
      else c.(current := Some(next.id), streaming := true)
  }

  /** With distinct ids, the device after `ds[k]` is `ds[k + 1]`, wrapping from the last to the first. */
  lemma RoundRobin(ds: seq<Device>, k: nat)
    requires DistinctIds(ds) && k < |ds|
    ensures NextIndex(ds, Some(ds[k].id)) == Succ(k, |ds|)
  {
    var r := FindIndex(ds, Some(ds[k].id));
    assert r != -1 && r <= k;
    SameKeySameIndex(ds, DeviceId, r, k);
    if k + 1 < |ds| {
      Arith.DivModUnique(k + 1, |ds|, 0, k + 1);
    } else {
      Arith.DivModUnique(k + 1, |ds|, 1, 0);
    }
  }

  /** A current id that is not listed (including none yet) switches to the first device. */
  lemma UnknownSwitchesToFirst(ds: seq<Device>, current: Option<string>)
    requires ds != [] && forall i :: 0 <= i < |ds| ==> current != Some(ds[i].id)
    ensures NextIndex(ds, current) == 0
  {
  }

  /** One successful switch from `ds[j]` lands on `ds[j + 1]`, or on `ds[0]` from the last device. */
  lemma SwitchStep(c: Camera, j: nat)
    requires DistinctIds(c.devices) && |c.devices| >= 2 && j < |c.devices|
    requires c.current == Some(c.devices[j].id)
    ensures SwitchCamera(c, Done, Done).devices == c.devices
    ensures SwitchCamera(c, Done, Done).current == Some(c.devices[Succ(j, |c.devices|)].id)
  {
    RoundRobin(c.devices, j);
  }

  /** `k` switches whose library calls all succeed. */
  function Switches(c: Camera, k: nat): Camera
    decreases k
  {
    if k == 0 then c else SwitchCamera(Switches(c, k - 1), Done, Done)
  }

  /** The position after `j` in a ring of `n` devices. */
  function Succ(j: nat, n: nat): nat {
    if j + 1 < n then j + 1 else 0
  }

  /** The position `k` steps round the ring of `n` from `i`. */
  function Rotated(i: nat, k: nat, n: nat): nat
    decreases k
  {
    if k == 0 then i else Succ(Rotated(i, k - 1, n), n)
  }

  /** Stepping round the ring is counting modulo `n`. */
  lemma {:induction false} RotatedIsMod(i: nat, k: nat, n: nat)
    requires i < n
    ensures Rotated(i, k, n) == (i + k) % n
    decreases k
  {
    if k > 0 {
      RotatedIsMod(i, k - 1, n);
      Arith.ModSucc(i + k - 1, n);
    }
  }

  /** The `k`-th switch of a run moves one device on from where the first `k - 1` left it. */
  lemma SwitchesStep(c: Camera, k: nat, j: nat)
    requires k > 0 && DistinctIds(c.devices) && |c.devices| >= 2 && j < |c.devices|
    requires Switches(c, k - 1).devices == c.devices
    requires Switches(c, k - 1).current == Some(c.devices[j].id)
    ensures Switches(c, k).devices == c.devices
    ensures Switches(c, k).current == Some(c.devices[Succ(j, |c.devices|)].id)
  {
    SwitchStep(Switches(c, k - 1), j);
  }

  /** `k` successful switches from `ds[i]` walk `k` steps round the ring. */
  lemma {:induction false} SwitchesWalk(c: Camera, i: nat, k: nat)
    requires DistinctIds(c.devices) && |c.devices| >= 2 && i < |c.devices|
    requires c.current == Some(c.devices[i].id)
    ensures Switches(c, k).devices == c.devices
    ensures Rotated(i, k, |c.devices|) < |c.devices|
    ensures Switches(c, k).current == Some(c.devices[Rotated(i, k, |c.devices|)].id)
    decreases k
  {
    if k > 0 {
      SwitchesWalk(c, i, k - 1);
      SwitchesStep(c, k, Rotated(i, k - 1, |c.devices|));
    }
  }

  /** Starting at `ds[i]`, `k` successful switches land on `ds[(i + k) mod n]`. */
  lemma SwitchesRotate(c: Camera, i: nat, k: nat)
    requires DistinctIds(c.devices) && |c.devices| >= 2 && i < |c.devices|
    requires c.current == Some(c.devices[i].id)
    ensures Switches(c, k).devices == c.devices
    ensures Switches(c, k).current == Some(c.devices[(i + k) % |c.devices|].id)
  {
    SwitchesWalk(c, i, k);
    RotatedIsMod(i, k, |c.devices|);
  }

  /** A full turn of the ring returns to where it started. */
  lemma RotatedFullTurn(i: nat, n: nat)
    requires i < n
    ensures Rotated(i, n, n) == i
  {
    RotatedIsMod(i, n, n);
    Arith.DivModUnique(i + n, n, 1, i);
  }

  /** Switching once per device brings the scanner back to the camera it started on. */
  lemma FullCycle(c: Camera, i: nat)
    requires DistinctIds(c.devices) && |c.devices| >= 2 && i < |c.devices|
    requires c.current == Some(c.devices[i].id)
    ensures Switches(c, |c.devices|).current == c.current
  {
    SwitchesWalk(c, i, |c.devices|);
    RotatedFullTurn(i, |c.devices|);
  }

  /** Devices [A, B, C]: on B the switch goes to C, and on C it wraps to A. */
  lemma ThreeCameras(a: Device, b: Device, c: Device)
    requires a.id != b.id && b.id != c.id && a.id != c.id
    ensures NextIndex([a, b, c], Some(b.id)) == 2
    ensures NextIndex([a, b, c], Some(c.id)) == 0
  {
    RoundRobin([a, b, c], 1);
    RoundRobin([a, b, c], 2);
  }
}

=== FILE: catcher.dfy ===
/**
 * The catcher page (`CatcherPage`): a decoded participant code is sent to
 * `POST /user/found` when no cooldown is running and at least 2000 ms have
 * passed since the last request; a successful catch starts the 15-second
 * cooldown and records who was caught.
 */
module CatcherPage {
  import opened Base
  import opened Api
  import opened Text
  import Throttle
  import Countdown
  import Toasts
  import Timers

  /** Minimum spacing between requests, in milliseconds. */
  const Interval: nat := 2000

  const CaughtPrefix: string := "사용자를 잡았습니다! 총 "
  const CaughtSuffix: string := "번 잡혔습니다."

  /** The `{id, foundCount}` body of a successful catch (`lastCaughtUser`). */
  datatype Caught = Caught(id: nat, foundCount: nat)

  datatype Catcher = Catcher(
    gate: Throttle.Gate,
    cooldown: Countdown.Cooldown,
    toast: Toasts.Toast,
    lastCaught: Option<Caught>)

  /** The page as first rendered. */
  const Mounted: Catcher := Catcher(Throttle.Fresh, Countdown.Idle, Toasts.Hidden, None)

  predicate Valid(p: Catcher) {
    Toasts.Valid(p.toast) && Countdown.Valid(p.cooldown)
  }

  /** The page state after a decode, and the user code sent, if any. */
  datatype Decoded = Decoded(page: Catcher, request: Option<string>)

  /**
   * A decode at clock time `now`, gated by the live cooldown as the page
   * intends: dropped during a cooldown or within `Interval` of the last
   * request, otherwise stamped and sent.
   */
  function Decode(p: Catcher, now: int, code: string): (r: Decoded)
    ensures r.request.Some? <==> !Countdown.Active(p.cooldown) && Throttle.Admits(p.gate, now, Interval)
    ensures r.request.Some? ==> r.request.value == code && r.page == p.(gate := Throttle.Gate(now))
    ensures r.request.None? ==> r.page == p
  {
    if Countdown.Active(p.cooldown) then Decoded(p, None)
    else if !Throttle.Admits(p.gate, now, Interval) then Decoded(p, None)
    else Decoded(p.(gate := Throttle.Offer(p.gate, now, Interval)), Some(code))
  }

  /**
   * The decode handler as the page builds it: it is created once, so the
   * `cooldown` it tests is the first render's value, 0, and only the
   * throttle gates requests.
   */
  function DecodeAsWritten(p: Catcher, now: int, code: string): (r: Decoded)
    ensures r.request.Some? <==> Throttle.Admits(p.gate, now, Interval)
    ensures r.request.Some? ==> r.request.value == code && r.page == p.(gate := Throttle.Gate(now))
    ensures r.request.None? ==> r.page == p
  {
    var seen := Countdown.Idle.remaining;
    if seen > 0 then Decoded(p, None)
    else if !Throttle.Admits(p.gate, now, Interval) then Decoded(p, None)
    else Decoded(p.(gate := Throttle.Offer(p.gate, now, Interval)), Some(code))
  }

  /**
   * The success toast, which reports the participant's total catch count: the
   * text between its fixed prefix and suffix is the canonical decimal rendering
   * of `count`, and it reads back as `count`.
   */
  function CaughtMessage(count: nat): (r: string)
    ensures |CaughtPrefix| + |CaughtSuffix| < |r| && CaughtPrefix <= r && r[|r| - |CaughtSuffix|..] == CaughtSuffix
    ensures r[|CaughtPrefix|..|r| - |CaughtSuffix|] == NatToString(count)
    ensures IsDigits(r[|CaughtPrefix|..|r| - |CaughtSuffix|])
    ensures ParseDigits(r[|CaughtPrefix|..|r| - |CaughtSuffix|]) == count
  {
    var r := CaughtPrefix + NatToString(count) + CaughtSuffix;
    assert r[|CaughtPrefix|..|r| - |CaughtSuffix|] == NatToString(count);
    ParseNatToString(count);
    r
  }

  /** The success toast determines the count it reports. */
  lemma CaughtMessageNamesCount(a: nat, b: nat)
    ensures CaughtMessage(a) == CaughtMessage(b) ==> a == b
  {
    if CaughtMessage(a) == CaughtMessage(b) {
      var m := CaughtMessage(a);
      assert NatToString(a) == m[|CaughtPrefix|..|m| - |CaughtSuffix|];
      assert NatToString(b) == CaughtMessage(b)[|CaughtPrefix|..|m| - |CaughtSuffix|];
      NatToStringInjective(a, b);
    }
  }

  /** The `/user/found` response arrives at clock time `now`. */
  function OnFound(p: Catcher, resp: Response<Caught>, now: int): (r: Catcher)
    ensures r.gate == p.gate && r.toast.visible
    ensures Valid(p) ==> Valid(r)
    ensures resp.Ok? ==> && r.cooldown.remaining == Countdown.Seconds && Countdown.Active(r.cooldown)
                         && r.lastCaught == Some(resp.body)
                         && r.toast.message == CaughtMessage(resp.body.foundCount)
    ensures !resp.Ok? ==> r.cooldown == p.cooldown && r.lastCaught == p.lastCaught
    ensures resp.Rejected? ==> r.toast.message == OrElse(resp.message, GenericError)
    ensures resp.Failed? ==> r.toast.message == NetworkError
  {
    match resp
    case Rejected(_, message) =>
      p.(toast := Toasts.Show(p.toast, OrElse(message, GenericError), now, Toasts.DefaultDuration))
    case Failed(_) =>
      p.(toast := Toasts.Show(p.toast, NetworkError, now, Toasts.DefaultDuration))
    case Ok(caught) =>
      p.(cooldown := Countdown.Start(p.cooldown, now),
         lastCaught := Some(caught),
         toast := Toasts.Show(p.toast, CaughtMessage(caught.foundCount), now, Toasts.DefaultDuration))
  }

  /** One second of the cooldown interval. */
  function Tick(p: Catcher): (r: Catcher)
    ensures r.gate == p.gate && r.toast == p.toast && r.lastCaught == p.lastCaught
    ensures Valid(p) ==> Valid(r)
  {
    p.(cooldown := Countdown.Tick(p.cooldown))
  }

  /** `k` seconds of the cooldown interval. */
  function Ticks(p: Catcher, k: nat): Catcher
    decreases k
  {
    if k == 0 then p else Ticks(Tick(p), k - 1)
  }

  lemma {:induction false} TicksCooldown(p: Catcher, k: nat)
    ensures Ticks(p, k) == p.(cooldown := Countdown.Ticks(p.cooldown, k))
    decreases k
  {
    if k > 0 {
      TicksCooldown(Tick(p), k - 1);
    }
  }

  /** The clock reaches `now`: a due toast dismissal fires. */
  function Advance(p: Catcher, now: int): (r: Catcher)
    ensures r.gate == p.gate && r.cooldown == p.cooldown && r.lastCaught == p.lastCaught
    ensures r.toast.message == p.toast.message && (r.toast.visible ==> p.toast.visible)
    ensures Valid(p) ==> (r.toast.visible <==> p.toast.visible && !Timers.DueBy(p.toast.timer, now))
    ensures Valid(p) ==> Valid(r)
  {
    p.(toast := Toasts.Advance(p.toast, now))
  }

  /**
   * After a successful catch, every decode during the next 15 ticks is dropped,
   * whatever its time: no request is sent and the page is unchanged.
   */
  lemma NoRequestDuringCooldown(p: Catcher, caught: Caught, t0: int, k: nat, now: int, code: string)
    requires Valid(p) && k < Countdown.Seconds
    ensures var q := Ticks(OnFound(p, Ok(caught), t0), k);
            Countdown.Active(q.cooldown) && Decode(q, now, code) == Decoded(q, None)
  {
    var p1 := OnFound(p, Ok(caught), t0);
    TicksCooldown(p1, k);
    Countdown.CountdownFromStart(p.cooldown, t0, k);
  }

  /**
   * As written, the handler lets a decode through during a cooldown: caught at
   * 10000 ms, two ticks later (13 s left) a decode at 12000 ms is sent.
   */
  lemma StaleCooldownAdmits(caught: Caught)
    ensures var d1 := DecodeAsWritten(Mounted, 10000, "first");
            var q := Ticks(OnFound(d1.page, Ok(caught), 10000), 2);
            && d1.request == Some("first")
            && q.cooldown.remaining == 13
            && DecodeAsWritten(q, 12000, "second").request == Some("second")
            && Decode(q, 12000, "second").request.None?
  {
    var d1 := DecodeAsWritten(Mounted, 10000, "first");
    var p1 := OnFound(d1.page, Ok(caught), 10000);
    TicksCooldown(p1, 2);
    Countdown.CountdownFromStart(d1.page.cooldown, 10000, 2);
  }
}

=== FILE: connect.dfy ===
/**
 * The connect page (`UserConnectPage`): a decoded participant code is looked up
 * with `GET /user?userCode=...` at most once per 3000 ms, and the answer routes
 * the participant to the scan page when a name is on file, else to name entry.
 */
module ConnectPage {
  import opened Base
  import opened Api
  import opened Nav
  import opened Text
  import Throttle
  import Toasts

  /** Minimum spacing between requests, in milliseconds. */
  const Interval: nat := 3000

  const InvalidCode: string := "유효하지 않은 QR 코드입니다."
  const Confirmed: string := "사용자 정보를 확인했습니다!"

  /** The `{id, name}` body of a successful lookup; `name` may be missing or null. */
  datatype UserInfo = UserInfo(id: nat, name: Option<string>)

  /** `scanning`: the `isScanning` flag; `route`: where the page has navigated, if anywhere. */
  datatype Connect = Connect(gate: Throttle.Gate, toast: Toasts.Toast, scanning: bool, route: Option<Route>)

  /** The page as first rendered. */
  const Mounted: Connect := Connect(Throttle.Fresh, Toasts.Hidden, false, None)

  datatype Decoded = Decoded(page: Connect, request: Option<string>)

  /** A decode at clock time `now`: dropped within `Interval` of the last request, else stamped, flagged and sent. */
  function Decode(p: Connect, now: int, code: string): (r: Decoded)
    ensures r.request.Some? <==> Throttle.Admits(p.gate, now, Interval)
    ensures r.request.Some? ==> && r.request.value == code && r.page.scanning
                                && r.page == p.(gate := Throttle.Gate(now), scanning := true)
    ensures r.request.None? ==> r.page == p
  {
    if !Throttle.Admits(p.gate, now, Interval) then Decoded(p, None)
    else Decoded(p.(gate := Throttle.Offer(p.gate, now, Interval), scanning := true), Some(code))
  }

  /** A user with a non-blank name goes to the scan page with their id and name; any other user goes to name entry with their id. */
  function Destination(u: UserInfo): (r: Route)
    ensures r.path == ScanPath <==> u.name.Some? && !AllWhitespace(u.name.value)
    ensures r.path == ScanPath ==> r.state == Location(Some(u.id), u.name)
    ensures r.path != ScanPath ==> r == Route(NamePath, Location(Some(u.id), None))
  {
    BlankIffAllWhitespace(u.name.GetOr(""));
    if u.name.Some? && u.name.value != "" && Trim(u.name.value) != "" then
      Route(ScanPath, Location(Some(u.id), u.name))
    else
      Route(NamePath, Location(Some(u.id), None))
  }

  /** The lookup response arrives at clock time `now`; `isScanning` is false on every path. */
  function OnLookup(p: Connect, resp: Response<UserInfo>, now: int): (r: Connect)
    ensures !r.scanning && r.gate == p.gate && r.toast.visible
    ensures Toasts.Valid(p.toast) ==> Toasts.Valid(r.toast)
    ensures resp.Ok? ==> r.route == Some(Destination(resp.body)) && r.toast.message == Confirmed
    ensures resp.Rejected? ==> r.route == p.route && r.toast.message == InvalidCode
    ensures resp.Failed? ==> r.route == p.route && r.toast.message == NetworkError
  {
    match resp
    case Rejected(_, _) =>
      p.(toast := Toasts.Show(p.toast, InvalidCode, now, Toasts.DefaultDuration), scanning := false)
    case Failed(_) =>
      p.(scanning := false, toast := Toasts.Show(p.toast, NetworkError, now, Toasts.DefaultDuration))
    case Ok(user) =>
      p.(scanning := false,
         toast := Toasts.Show(p.toast, Confirmed, now, Toasts.DefaultDuration),
         route := Some(Destination(user)))
  }

  /** `{id: 7, name: ""}` goes to name entry with `userId` 7; `{id: 7, name: "Kim"}` to the scan page. */
  lemma Id7Routes()
    ensures Destination(UserInfo(7, Some(""))) == Route(NamePath, Location(Some(7), None))
    ensures Destination(UserInfo(7, Some("Kim"))) == Route(ScanPath, Location(Some(7), Some("Kim")))
  {
    assert "Kim"[0] == 'K' && !IsWhitespace('K');
  }
}

=== FILE: cooldown.dfy ===
/**
 * The catcher's post-catch lockout (`startCooldown`): a count of seconds set to
 * 15 and decremented by a one-second interval, which clears itself when the
 * count reaches zero.
 */
module Countdown {
  import opened Timers

  /** `COOLDOWN_TIME`, in seconds. */
  const Seconds: nat := 15

  /** The countdown interval's period, in milliseconds. */
  const TickMs: nat := 1000

  /** `remaining`: the `cooldown` state; `interval`: `cooldownIntervalRef`. */
  datatype Cooldown = Cooldown(remaining: int, interval: Slot)

  /** The state as first rendered. */
  const Idle: Cooldown := Cooldown(0, Timers.Idle)

  predicate Active(c: Cooldown) {
    c.remaining > 0
  }

  /** The count stays within [0, 15], and an interval is running exactly while it is positive. */
  predicate Valid(c: Cooldown) {
    && Timers.Valid(c.interval)
    && 0 <= c.remaining <= Seconds
    && (Pending(c.interval) <==> c.remaining > 0)
  }

  /** `startCooldown()` at clock time `now`: the count restarts and any earlier interval is cleared. */
  function Start(c: Cooldown, now: int): (r: Cooldown)
    ensures r.remaining == Seconds && Active(r) && Pending(r.interval)
    ensures Timers.Valid(c.interval) ==> Valid(r) && r.interval.live == {r.interval.ref.value.id}
  {
    Cooldown(Seconds, Arm(c.interval, now + TickMs))
  }

  /** One run of the interval callback; with no interval scheduled, nothing runs. */
  function Tick(c: Cooldown): (r: Cooldown)
    ensures !Pending(c.interval) ==> r == c
    ensures Pending(c.interval) ==> r.remaining == if c.remaining > 1 then c.remaining - 1 else 0
    ensures Valid(c) ==> Valid(r)
  {
    if !Pending(c.interval) then c
    else if c.remaining <= 1 then Cooldown(0, Clear(c.interval))
    else c.(remaining := c.remaining - 1)
  }

  /** `k` runs of the interval callback. */
  function Ticks(c: Cooldown, k: nat): Cooldown
    decreases k
  {
    if k == 0 then c else Ticks(Tick(c), k - 1)
  }

  /** From a valid state, `k` ticks take `k` off the count, stopping at zero and never below. */
  lemma {:induction false} TicksCount(c: Cooldown, k: nat)
    requires Valid(c)
    ensures var r := Ticks(c, k);
            Valid(r) && r.remaining == (if c.remaining > k then c.remaining - k else 0)
    decreases k
  {
    if k > 0 {
      TicksCount(Tick(c), k - 1);
    }
  }

  /** A fresh countdown reads 15 - k after k ticks, and reaches 0, with its interval cleared, at exactly the 15th. */
  lemma CountdownFromStart(c: Cooldown, now: int, k: nat)
    requires Timers.Valid(c.interval)
    ensures var r := Ticks(Start(c, now), k);
            && r.remaining == (if k < Seconds then Seconds - k else 0)
            && (Active(r) <==> k < Seconds)
            && (Pending(r.interval) <==> k < Seconds)
  {
    TicksCount(Start(c, now), k);
  }
}

=== FILE: flows.dfy ===
/** How the connect page's routing meets the entry checks of the pages it routes to. */
module Flows {
  import opened Base
  import opened Nav
  import ConnectPage
  import TreasurePage
  import NamePage

  /** A participant sent to `/scan` is let in by the scan page unless their id is 0. */
  lemma ConnectToScan(u: ConnectPage.UserInfo)
    requires ConnectPage.Destination(u).path == ScanPath
    ensures TreasurePage.Enter(ConnectPage.Destination(u).state).Opened? <==> u.id != 0
  {
    assert u.name.value != "";
  }

  /** A participant sent to `/name` is let in by the name page unless their id is 0. */
  lemma ConnectToName(u: ConnectPage.UserInfo)
    requires ConnectPage.Destination(u).path == NamePath
    ensures NamePage.Enter(ConnectPage.Destination(u).state).Opened? <==> u.id != 0
  {
  }
}

=== FILE: gate.dfy ===
/**
 * The decode throttle of the scanner pages: a decoded QR payload triggers a
 * request only when at least `interval` milliseconds have passed since the last
 * request, and the timestamp is stamped before the request is sent.
 */
module Throttle {

  /** `lastRequestTimeRef.current`. */
  datatype Gate = Gate(lastRequest: int)

  /** The gate on mount: no request yet, so the stamp is 0. */
  const Fresh: Gate := Gate(0)

  /** The throttle lets a decode through: at least `interval` has passed since the last stamped request. */
  predicate Admits(g: Gate, now: int, interval: nat) {
    now - g.lastRequest >= interval
  }

  /** A decode at `now`: an admitted one stamps `now`; a throttled one leaves the gate alone. */
  function Offer(g: Gate, now: int, interval: nat): (r: Gate)
    ensures Admits(g, now, interval) ==> r.lastRequest == now
    ensures !Admits(g, now, interval) ==> r == g
    ensures r.lastRequest == g.lastRequest || r.lastRequest >= g.lastRequest + interval
  {
    if Admits(g, now, interval) then Gate(now) else g
  }

  /** The decode times, in arrival order, that a run of decodes lets through. */
  function Admitted(g: Gate, times: seq<int>, interval: nat): seq<int>
    decreases |times|
  {
    if times == [] then []
    else
      var head := if Admits(g, times[0], interval) then [times[0]] else [];
      head + Admitted(Offer(g, times[0], interval), times[1..], interval)
  }

  /** The gate after a run of decodes. */
  function After(g: Gate, times: seq<int>, interval: nat): Gate
    decreases |times|
  {
    if times == [] then g else After(Offer(g, times[0], interval), times[1..], interval)
  }

  /** Each admitted time is at least `interval` after the previous one (the first: after `start`). */
  predicate Spaced(start: int, xs: seq<int>, interval: nat) {
    && (|xs| > 0 ==> xs[0] - start >= interval)
    && (forall i :: 0 < i < |xs| ==> xs[i] - xs[i - 1] >= interval)
  }

  /** Throttling holds over any run of decodes, in any clock order: requests are spaced by `interval`. */
  lemma {:induction false} AdmittedSpaced(g: Gate, times: seq<int>, interval: nat)
    ensures Spaced(g.lastRequest, Admitted(g, times, interval), interval)
    decreases |times|
  {
    if times != [] {
      var g' := Offer(g, times[0], interval);
      var rest := Admitted(g', times[1..], interval);
      AdmittedSpaced(g', times[1..], interval);
      if Admits(g, times[0], interval) {
        var xs := [times[0]] + rest;
        assert Admitted(g, times, interval) == xs;
        forall i | 0 < i < |xs| ensures xs[i] - xs[i - 1] >= interval {
          assert xs[i] == rest[i - 1];
        }
      } else {
        assert Admitted(g, times, interval) == rest;
      }
    }
  }

  /** After a run, the gate holds the last admitted time, or its old stamp when nothing got through. */
  lemma {:induction false} AfterStampsLastAdmitted(g: Gate, times: seq<int>, interval: nat)
    ensures var xs := Admitted(g, times, interval);
            After(g, times, interval).lastRequest == (if xs == [] then g.lastRequest else xs[|xs| - 1])
    decreases |times|
  {
    if times != [] {
      AfterStampsLastAdmitted(Offer(g, times[0], interval), times[1..], interval);
    }
  }
}

=== FILE: name.dfy ===
/**
 * The name-entry page (`NamePage`): the participant types a name, which is
 * trimmed and saved with `POST /user/name`; on success the page moves on to the
 * scan page.
 */
module NamePage {
  import opened Base
  import opened Api
  import opened Nav
  import opened Text

  const EmptyName: string := "이름을 입력해주세요."
  const SaveFailed: string := "이름을 저장하는데 실패했습니다."
  const ServerError: string := "서버 오류가 발생했습니다. 다시 시도해주세요."

  /** `name`: the input's text; `error`: the error panel ("" when hidden); `route`: navigation, if any. */
  datatype Form = Form(userId: nat, name: string, submitting: bool, error: string, route: Option<Route>)

  datatype Landing = Redirect(route: Route) | Opened(form: Form)

  /** Entering with `location.state`: without a truthy `userId` the page redirects to `/connect`. */
  function Enter(loc: Location): (r: Landing)
    ensures r.Redirect? <==> !TruthyId(loc.userId)
    ensures r.Redirect? ==> r.route == ToConnect
    ensures r.Opened? ==> r.form == Form(loc.userId.value, "", false, "", None)
  {
    if loc.userId.None? || loc.userId.value == 0 then Redirect(ToConnect)
    else Opened(Form(loc.userId.value, "", false, "", None))
  }

  /** Typing in the input: the text is replaced and any error cleared. */
  function Edit(f: Form, text: string): (r: Form)
    ensures r.name == text && r.error == ""
    ensures r.userId == f.userId && r.submitting == f.submitting && r.route == f.route
    ensures SubmitDisabled(r) <==> f.submitting || AllWhitespace(text)
  {
    f.(name := text, error := "")
  }

  /**
   * The submit button is disabled while a save is in flight or while the name
   * trims to nothing, that is, exactly while saving or while the input holds
   * only whitespace.
   */
  function SubmitDisabled(f: Form): (r: bool)
    ensures r <==> f.submitting || AllWhitespace(f.name)
  {
    BlankIffAllWhitespace(f.name);
    f.submitting || IsBlank(f.name)
  }

  /** The `{userId, name}` body of `/user/name`. */
  datatype NameRequest = NameRequest(userId: nat, name: string)

  datatype Submitted = Submitted(form: Form, request: Option<NameRequest>)

  /** `handleSubmit`: a blank name sets the error and sends nothing; otherwise the trimmed name is sent. */
  function Submit(f: Form): (r: Submitted)
    ensures r.request.None? <==> AllWhitespace(f.name)
    ensures r.request.None? ==> r.form == f.(error := EmptyName)
    ensures r.request.Some? ==> && r.form == f.(submitting := true, error := "")
                                && r.request.value.userId == f.userId
                                && r.request.value.name == Trim(f.name)
                                && r.request.value.name != ""
  {
    BlankIffAllWhitespace(f.name);
    if Trim(f.name) == "" then Submitted(f.(error := EmptyName), None)
    else Submitted(f.(submitting := true, error := ""), Some(NameRequest(f.userId, Trim(f.name))))
  }

  /** The `/user/name` response, whose body is `{userId, name}`, arrives; `isSubmitting` is cleared on every path. */
  function OnSaved(f: Form, resp: Response<Location>): (r: Form)
    ensures !r.submitting && r.name == f.name && r.userId == f.userId
    ensures resp.Ok? ==> r.route == Some(Route(ScanPath, resp.body)) && r.error == f.error
    ensures resp.Rejected? ==> r.route == f.route && r.error == OrElse(resp.message, SaveFailed) && r.error != ""
    ensures resp.Failed? ==> r.route == f.route && r.error == OrElse(resp.reason, ServerError) && r.error != ""
  {
    match resp
    case Ok(saved) => f.(route := Some(Route(ScanPath, saved)), submitting := false)
    case Rejected(_, message) =>
      var thrown := OrElse(message, SaveFailed);
      f.(error := OrElse(thrown, ServerError), submitting := false)
    case Failed(reason) => f.(error := OrElse(reason, ServerError), submitting := false)
  }
}

=== FILE: nav.dfy ===
/** Navigation between pages and the `location.state` a page is entered with. */
module Nav {
  import opened Base

  datatype Path = ConnectPath | ScanPath | NamePath

  /** `location.state`: `{userId, name}`, either of which may be missing. */
  datatype Location = Location(userId: Option<nat>, name: Option<string>)

  /** `navigate(path, { state })`. */
  datatype Route = Route(path: Path, state: Location)

  /** A location with no state (`navigate('/connect')`). */
  const Empty: Location := Location(None, None)

  const ToConnect: Route := Route(ConnectPath, Empty)

  /** JavaScript truthiness of an id: present and not 0. */
  predicate TruthyId(id: Option<nat>) {
    id.Some? && id.value != 0
  }

  /** JavaScript truthiness of a string: present and not empty. */
  predicate TruthyText(s: Option<string>) {
    s.Some? && s.value != ""
  }
}

=== FILE: ranking.dfy ===
/**
 * The leaderboard (`RankingPage`): the ranking list is polled, tripled for a
 * continuous scroll with a display rank and a unique key per row, users whose
 * position changed are highlighted, and scores are drawn as coloured bars.
 */
module RankingPage {
  import opened Base
  import opened Text
  import opened Seqs
  import Arith

  /** One `{id, name, score, treasureCount}` element of `GET /rank`. */
  datatype Entry = Entry(id: nat, name: string, score: int, treasureCount: nat)

  /** An element of `visibleRankings`: the entry plus `displayRank` and `key`. */
  datatype Row = Row(entry: Entry, displayRank: nat, key: string)

  /** Joining `a` and a one-character `b` with a hyphen keeps both recoverable. */
  lemma HyphenParts(a: string, b: string)
    ensures var r := a + "-" + b;
            |b| == 1 ==> && |r| == |a| + 2 && r[..|r| - 2] == a
                         && r[|r| - 2] == '-' && r[|r| - 1..] == b
  {
  }

  /**
   * The row key: the user's id and the copy number, joined by a hyphen. For a
   * single-digit copy, the text before the hyphen reads back as the id and the
   * last character as the copy.
   */
  function RowKey(id: nat, copy: nat): (r: string)
    ensures copy < 10 ==> && 3 <= |r| && r[|r| - 2] == '-'
                          && IsDigits(r[..|r| - 2]) && ParseDigits(r[..|r| - 2]) == id
                          && IsDigits(r[|r| - 1..]) && ParseDigits(r[|r| - 1..]) == copy
  {
    ParseNatToString(id);
    ParseNatToString(copy);
    HyphenParts(NatToString(id), NatToString(copy));
    NatToString(id) + "-" + NatToString(copy)
  }

  /** Keys of single-digit copies tell both the id and the copy apart. */
  lemma RowKeyInjective(a: nat, c: nat, b: nat, d: nat)
    requires c < 10 && d < 10
    ensures RowKey(a, c) == RowKey(b, d) ==> a == b && c == d
  {
    if RowKey(a, c) == RowKey(b, d) {
      HyphenParts(NatToString(a), NatToString(c));
      HyphenParts(NatToString(b), NatToString(d));
      NatToStringInjective(c, d);
      NatToStringInjective(a, b);
    }
  }

  /** `i % n` and `i / n` for `i` in the `copy`-th block of length `n`. */
  lemma InBlock(i: int, n: nat, copy: nat)
    requires copy < 3 && copy * n <= i < (copy + 1) * n
    ensures i % n == i - copy * n && i / n == copy
  {
    Arith.DivModUnique(i, n, copy, i - copy * n);
  }

  /** Position `i` of the tripled list holds `rankings[i % n]`, in copy `i / n < 3`. */
  lemma TripledAt(rankings: seq<Entry>, i: int)
    requires rankings != [] && 0 <= i < 3 * |rankings|
    ensures (rankings + rankings + rankings)[i] == rankings[i % |rankings|]
    ensures i / |rankings| < 3
  {
    var n := |rankings|;
    if i < n {
      InBlock(i, n, 0);
    } else if i < 2 * n {
      InBlock(i, n, 1);
    } else {
      InBlock(i, n, 2);
    }
  }

  /**
   * Row `i` of the tripled list: the user at `i` in the three concatenated
   * copies, ranked by their place in the single list, keyed by id and copy.
   */
  function TripledRow(rankings: seq<Entry>, i: int): (row: Row)
    requires rankings != [] && 0 <= i < 3 * |rankings|
    ensures row.entry == rankings[i % |rankings|]
    ensures 0 <= i % |rankings| < |rankings| && i / |rankings| < 3
    ensures 1 <= row.displayRank <= |rankings| && row.displayRank == i % |rankings| + 1
    ensures row.key == RowKey(rankings[i % |rankings|].id, i / |rankings|)
  {
    var n := |rankings|;
    var all := rankings + rankings + rankings;
    TripledAt(rankings, i);
    Row(all[i], i % n + 1, RowKey(all[i].id, i / n))
  }

  /** The three copies of the list mapped to rows, for a scroll that wraps around. */
  function Tripled(rankings: seq<Entry>): (rows: seq<Row>)
    requires rankings != []
    ensures |rows| == 3 * |rankings|
    ensures forall i :: 0 <= i < |rows| ==>
              && rows[i].entry == rankings[i % |rankings|]
              && 1 <= rows[i].displayRank <= |rankings|
              && rows[i].displayRank == i % |rankings| + 1
              && i / |rankings| < 3
              && rows[i].key == RowKey(rankings[i % |rankings|].id, i / |rankings|)
  {
    seq(3 * |rankings|, i requires 0 <= i < 3 * |rankings| => TripledRow(rankings, i))
  }

  /** The effect on `rankings`: an empty list leaves `visibleRankings` as it was. */
  function Prepare(visible: seq<Row>, rankings: seq<Entry>): (r: seq<Row>)
    ensures rankings == [] ==> r == visible
    ensures rankings != [] ==> |r| == 3 * |rankings| && r == Tripled(rankings)
  {
    if rankings == [] then visible else Tripled(rankings)
  }

  /** No two entries share an id. */
  predicate DistinctIds(rankings: seq<Entry>) {
    DistinctKeys(rankings, EntryId)
  }

  /** The key users are told apart by. */
  function EntryId(e: Entry): nat {
    e.id
  }

  /** Two different positions differ in their block or in their offset within it. */
  lemma PlaceDetermines(i: int, j: int, n: int)
    requires n > 0 && 0 <= i && 0 <= j && i != j
    ensures i % n != j % n || i / n != j / n
  {
    assert i == (i / n) * n + i % n;
    assert j == (j / n) * n + j % n;
  }

  /** Keys of different (user, copy) places differ when the users' ids are distinct. */
  lemma PlaceKeysDiffer(rankings: seq<Entry>, a: nat, ca: nat, b: nat, cb: nat)
    requires DistinctIds(rankings) && a < |rankings| && b < |rankings| && ca < 3 && cb < 3
    requires a != b || ca != cb
    ensures RowKey(rankings[a].id, ca) != RowKey(rankings[b].id, cb)
  {
    RowKeyInjective(rankings[a].id, ca, rankings[b].id, cb);
    if rankings[a].id == rankings[b].id {
      SameKeySameIndex(rankings, EntryId, a, b);
    }
  }

  /** Two rows of the tripled list have the same key only if they are the same row. */
  lemma KeyDiffers(rankings: seq<Entry>, i: int, j: int)
    requires rankings != [] && DistinctIds(rankings)
    requires 0 <= i < 3 * |rankings| && 0 <= j < 3 * |rankings| && i != j
    ensures TripledRow(rankings, i).key != TripledRow(rankings, j).key
  {
    var n := |rankings|;
    PlaceDetermines(i, j, n);
    if TripledRow(rankings, i).key == TripledRow(rankings, j).key {
      PlaceKeysDiffer(rankings, i % n, i / n, j % n, j / n);
      assert false;
    }
  }

  /** With distinct user ids, the 3n row keys are pairwise distinct. */
  lemma KeysDistinct(rankings: seq<Entry>)
    requires rankings != [] && DistinctIds(rankings)
    ensures var rows := Tripled(rankings);
            forall i, j :: 0 <= i < j < |rows| ==> rows[i].key != rows[j].key
  {
    var rows := Tripled(rankings);
    forall i, j | 0 <= i < j < |rows| ensures rows[i].key != rows[j].key {
      KeyDiffers(rankings, i, j);
    }
  }

  /** The first position of user `id` in the previous list, or -1 when they were not in it. */
  function IndexOfId(prev: seq<Entry>, id: nat): (r: int)
    ensures -1 <= r < |prev|
    ensures r >= 0 ==> prev[r].id == id
    ensures forall j :: 0 <= j < |prev| && (r == -1 || j < r) ==> prev[j].id != id
  {
    FirstIndex(prev, (e: Entry) => e.id == id)
  }

  /** The user at `i` was in the previous list, at a different position. */
  function Moved(rankings: seq<Entry>, prev: seq<Entry>, i: int): (r: bool)
    requires 0 <= i < |rankings|
    ensures r <==> exists j :: && 0 <= j < |prev| && prev[j].id == rankings[i].id && j != i
                               && forall k :: 0 <= k < j ==> prev[k].id != rankings[i].id
  {
    var j := IndexOfId(prev, rankings[i].id);
    j != -1 && j != i
  }

  /** The positions of `rankings` that get highlighted. */
  function Highlighted(rankings: seq<Entry>, prev: seq<Entry>): (r: set<nat>)
    ensures forall i :: i in r ==> i < |rankings| && exists j :: 0 <= j < |prev| && prev[j].id == rankings[i].id && j != i
    ensures prev == [] ==> r == {}
  {
    set i: nat | i < |rankings| && Moved(rankings, prev, i)
  }

  /**
   * With distinct ids in the previous list, a user is highlighted exactly when
   * they were in it at a different position.
   */
  lemma HighlightedIff(rankings: seq<Entry>, prev: seq<Entry>, i: nat)
    requires DistinctIds(prev) && i < |rankings|
    ensures i in Highlighted(rankings, prev) <==>
              exists j :: 0 <= j < |prev| && prev[j].id == rankings[i].id && j != i
  {
    var k := IndexOfId(prev, rankings[i].id);
    if exists j :: 0 <= j < |prev| && prev[j].id == rankings[i].id && j != i {
      var j :| 0 <= j < |prev| && prev[j].id == rankings[i].id && j != i;
      assert k == j;
    }
  }

  /** Nothing is highlighted when the list did not change. */
  lemma UnchangedNotHighlighted(rankings: seq<Entry>)
    requires DistinctIds(rankings)
    ensures Highlighted(rankings, rankings) == {}
  {
    forall i: nat | i < |rankings| ensures !Moved(rankings, rankings, i) {
      HighlightedIff(rankings, rankings, i);
    }
  }

  /** The first three users, in list order (fewer when the list is shorter). */
  function Podium(rankings: seq<Entry>): (r: seq<Entry>)
    ensures |r| <= 3 && r <= rankings
    ensures |r| == 3 || r == rankings
  {
    if |rankings| <= 3 then rankings else rankings[..3]
  }

  datatype Color = Green | Yellow | Orange | Red

  /** The bar colour of a score. */
  function ScoreColor(score: int): (c: Color)
    ensures c == Green <==> 8 <= score
    ensures c == Yellow <==> 5 <= score < 8
    ensures c == Orange <==> 0 <= score < 5
    ensures c == Red <==> score < 0
  {
    if score >= 8 then Green
    else if score >= 5 then Yellow
    else if score >= 0 then Orange
    else Red
  }

  /** The colours in order of increasing score. */
  function Level(c: Color): nat {
    match c
    case Red => 0
    case Orange => 1
    case Yellow => 2
    case Green => 3
  }

  /** A higher score never gets a lower colour. */
  lemma ScoreColorMonotone(a: int, b: int)
    requires a <= b
    ensures Level(ScoreColor(a)) <= Level(ScoreColor(b))
  {
  }

  /** The score bar's width in percent: ten points per unit of score, kept within 0 and 100. */
  function ScoreWidth(score: int): (w: int)
    ensures 0 <= w <= 100
    ensures 0 <= score <= 10 ==> w == 10 * score
    ensures score <= 0 ==> w == 0
    ensures score >= 10 ==> w == 100
  {
    var raw := score * 10;
    var low := if raw > 0 then raw else 0;
    if low < 100 then low else 100
  }

  /** A higher score never draws a shorter bar. */
  lemma ScoreWidthMonotone(a: int, b: int)
    requires a <= b
    ensures ScoreWidth(a) <= ScoreWidth(b)
  {
  }

  /** The podium bar's width in percent: two points per treasure, capped at 100. */
  function PodiumWidth(treasureCount: nat): (w: int)
    ensures 0 <= w <= 100
    ensures treasureCount <= 50 ==> w == 2 * treasureCount
    ensures treasureCount >= 50 ==> w == 100
  {
    var raw := treasureCount * 2;
    if raw < 100 then raw else 100
  }

  /** `rankings`, `visibleRankings`, `prevRankings` and `loading`. */
  datatype Board = Board(rankings: seq<Entry>, visible: seq<Row>, prev: seq<Entry>, loading: bool)

  /** The page as first rendered. */
  const Initial: Board := Board([], [], [], true)

  /**
   * One poll of `/rank` as the page intends: the list being replaced becomes
   * `prev`. `None` stands for a thrown request, which changes nothing but `loading`.
   */
  function Poll(b: Board, fetched: Option<seq<Entry>>): (r: Board)
    ensures !r.loading
    ensures fetched.None? ==> r == b.(loading := false)
    ensures fetched.Some? ==> && r.rankings == fetched.value && r.prev == b.rankings
                              && r.visible == Prepare(b.visible, fetched.value)
  {
    match fetched
    case None => b.(loading := false)
    case Some(data) => Board(data, Prepare(b.visible, data), b.rankings, false)
  }

  /**
   * One poll as written: the polling callback is created on mount, so the
   * `rankings` it stores into `prev` is the first render's, always `[]`.
   */
  function PollAsWritten(b: Board, fetched: Option<seq<Entry>>): (r: Board)
    ensures !r.loading
    ensures fetched.Some? ==> && r.prev == [] && r.rankings == fetched.value
                              && r.visible == Prepare(b.visible, fetched.value)
    ensures fetched.None? ==> r == b.(loading := false)
  {
    match fetched
    case None => b.(loading := false)
    case Some(data) => Board(data, Prepare(b.visible, data), Initial.rankings, false)
  }

  /** A run of polls as written. */
  function PollsAsWritten(b: Board, polls: seq<Option<seq<Entry>>>): Board
    decreases |polls|
  {
    if polls == [] then b else PollsAsWritten(PollAsWritten(b, polls[0]), polls[1..])
  }

  /** A run of polls as intended. */
  function Polls(b: Board, polls: seq<Option<seq<Entry>>>): Board
    decreases |polls|
  {
    if polls == [] then b else Polls(Poll(b, polls[0]), polls[1..])
  }

  /** As written, however the ranking changes between polls, nobody is ever highlighted. */
  lemma {:induction false} NeverHighlightsAsWritten(polls: seq<Option<seq<Entry>>>)
    ensures var b := PollsAsWritten(Initial, polls);
            b.prev == [] && Highlighted(b.rankings, b.prev) == {}
  {
    AsWrittenKeepsEmptyPrev(Initial, polls);
  }

  lemma {:induction false} AsWrittenKeepsEmptyPrev(b: Board, polls: seq<Option<seq<Entry>>>)
    requires b.prev == []
    ensures PollsAsWritten(b, polls).prev == []
    decreases |polls|
  {
    if polls != [] {
      AsWrittenKeepsEmptyPrev(PollAsWritten(b, polls[0]), polls[1..]);
    }
  }

  /** Two users swap places between polls: as intended both are highlighted; as written neither is. */
  lemma SwapIsHighlighted(x: Entry, y: Entry)
    requires x.id != y.id
    ensures var polls := [Some([x, y]), Some([y, x])];
            var b := Polls(Initial, polls);
            var w := PollsAsWritten(Initial, polls);
            Highlighted(b.rankings, b.prev) == {0, 1} && Highlighted(w.rankings, w.prev) == {}
  {
    var polls := [Some([x, y]), Some([y, x])];
    var b1 := Poll(Initial, polls[0]);
    var b2 := Poll(b1, polls[1]);
    assert polls[1..][1..] == [];
    assert Polls(Initial, polls) == Polls(b1, polls[1..]) == Polls(b2, []) == b2;
    assert b2.rankings == [y, x] && b2.prev == [x, y];
    assert Moved([y, x], [x, y], 0) && Moved([y, x], [x, y], 1);
    NeverHighlightsAsWritten(polls);
  }
}

=== FILE: seqs.dfy ===
/** Searches over sequences shared by the page models. */
module Seqs {

  /**
   * JavaScript's `findIndex`: the first position whose element satisfies `p`,
   * or -1 when none does.
   */
  function FirstIndex<T>(xs: seq<T>, p: T -> bool): (r: int)
    ensures -1 <= r < |xs|
    ensures r >= 0 ==> p(xs[r])
    ensures forall j :: 0 <= j < |xs| && (r == -1 || j < r) ==> !p(xs[j])
  {
    if xs == [] then -1
    else if p(xs[0]) then 0
    else
      var k := FirstIndex(xs[1..], p);
      if k == -1 then -1 else k + 1
  }

  /** No two elements share a key. */
  predicate DistinctKeys<T, K(==)>(xs: seq<T>, key: T -> K) {
    forall i, j :: 0 <= i < j < |xs| ==> key(xs[i]) != key(xs[j])
  }

  /** With distinct keys, a key names exactly one position. */
  lemma SameKeySameIndex<T, K>(xs: seq<T>, key: T -> K, a: int, b: int)
    requires DistinctKeys(xs, key)
    requires 0 <= a < |xs| && 0 <= b < |xs| && key(xs[a]) == key(xs[b])
    ensures a == b
  {
  }
}

=== FILE: text.dfy ===
/**
 * The string operations the pages rely on: JavaScript's `String.prototype.trim`,
 * lower-casing of camera labels, substring search (`includes`) and the decimal
 * rendering of counts and ids that appears in toasts and row keys.
 */
module Text {

  /** The characters `trim` removes: ECMAScript WhiteSpace and LineTerminator. */
  predicate IsWhitespace(c: char) {
    || c == ' ' || c == '\t' || c == '\n' || c == '\r'
    || c == '\U{000B}' || c == '\U{000C}'
    || c == '\U{00A0}' || c == '\U{1680}'
    || ('\U{2000}' <= c <= '\U{200A}')
    || c == '\U{2028}' || c == '\U{2029}' || c == '\U{202F}'
    || c == '\U{205F}' || c == '\U{3000}' || c == '\U{FEFF}'
  }

  predicate AllWhitespace(s: string) {
    forall i :: 0 <= i < |s| ==> IsWhitespace(s[i])
  }

  /** Drops leading whitespace. */
  function TrimStart(s: string): (r: string)
    ensures |r| <= |s| && r == s[|s| - |r|..]
    ensures AllWhitespace(s[..|s| - |r|])
    ensures r != [] ==> !IsWhitespace(r[0])
  {
    if s != [] && IsWhitespace(s[0]) then
      var r := TrimStart(s[1..]);
      assert s[1..][..|s[1..]| - |r|] == s[1..|s| - |r|];
      r
    else
      s
  }

  /** Drops trailing whitespace. */
  function TrimEnd(s: string): (r: string)
    ensures |r| <= |s| && r == s[..|r|]
    ensures AllWhitespace(s[|r|..])
    ensures r != [] ==> !IsWhitespace(r[|r| - 1])
  {
    if s != [] && IsWhitespace(s[|s| - 1]) then
      var r := TrimEnd(s[..|s| - 1]);
      assert s[..|s| - 1][|r|..] + [s[|s| - 1]] == s[|r|..];
      r
    else
      s
  }

  /** `s.trim()`: the slice of `s` between its leading and trailing whitespace. */
  function Trim(s: string): (r: string)
    ensures |r| <= |s|
    ensures exists a, b :: 0 <= a <= b <= |s| && r == s[a..b]
                           && AllWhitespace(s[..a]) && AllWhitespace(s[b..])
    ensures r != [] ==> !IsWhitespace(r[0]) && !IsWhitespace(r[|r| - 1])
  {
    var t := TrimStart(s);
    var r := TrimEnd(t);
    var a := |s| - |t|;
    assert r == s[a..a + |r|];
    assert s[a + |r|..] == t[|r|..];
    r
  }

  /** Trimming leaves nothing: the string is empty once whitespace is stripped. */
  predicate IsBlank(s: string) {
    Trim(s) == []
  }

  /** A string is blank exactly when every character in it is whitespace. */
  lemma BlankIffAllWhitespace(s: string)
    ensures IsBlank(s) <==> AllWhitespace(s)
  {
  }

  /** Trimming twice is trimming once. */
  lemma TrimIdempotent(s: string)
    ensures Trim(Trim(s)) == Trim(s)
  {
    var r := Trim(s);
    assert TrimStart(r) == r;
    assert TrimEnd(r) == r;
  }

  /** ASCII upper-case letters map to lower case; every other character is kept. */
  function LowerChar(c: char): (r: char)
    ensures 'A' <= c <= 'Z' ==> 'a' <= r <= 'z' && r as int - 'a' as int == c as int - 'A' as int
    ensures !('A' <= c <= 'Z') ==> r == c
  {
    if 'A' <= c <= 'Z' then (c as int + 32) as char else c
  }

  /** `s.toLowerCase()` restricted to the ASCII letters. */
  function ToLower(s: string): (r: string)
    ensures |r| == |s|
    ensures forall i :: 0 <= i < |s| ==> r[i] == LowerChar(s[i])
  {
    seq(|s|, i requires 0 <= i < |s| => LowerChar(s[i]))
  }

  /** Lower-casing a lower-cased string changes nothing. */
  lemma ToLowerIdempotent(s: string)
    ensures ToLower(ToLower(s)) == ToLower(s)
  {
  }

  /** `w` occurs in `s` starting at index `i`. */
  predicate OccursAt(s: string, w: string, i: int) {
    0 <= i && i + |w| <= |s| && s[i..i + |w|] == w
  }

  /** `s.includes(w)`. */
  function Contains(s: string, w: string): (r: bool)
    ensures r <==> exists i :: OccursAt(s, w, i)
    decreases |s|
  {
    if |w| > |s| then
      assert forall i :: !OccursAt(s, w, i);
      false
    else if s[..|w|] == w then
      assert OccursAt(s, w, 0);
      true
    else
      var r := Contains(s[1..], w);
      assert forall i :: OccursAt(s[1..], w, i) <==> OccursAt(s, w, i + 1);
      assert !OccursAt(s, w, 0);
      assert forall i :: OccursAt(s, w, i) ==> i == 0 || OccursAt(s[1..], w, i - 1);
      r
  }

  /** The decimal digit for `d`. */
  function DigitChar(d: nat): (c: char)
    requires d < 10
    ensures '0' <= c <= '9'
  {
    ('0' as int + d) as char
  }

  predicate IsDigits(s: string) {
    forall i :: 0 <= i < |s| ==> '0' <= s[i] <= '9'
  }

  /**
   * The decimal rendering JavaScript gives a non-negative integer in a template
   * literal: digits only, with no leading zero.
   */
  function NatToString(n: nat): (r: string)
    ensures |r| > 0 && IsDigits(r)
    ensures n < 10 <==> |r| == 1
    ensures n > 0 ==> r[0] != '0'
    decreases n
  {
    if n < 10 then [DigitChar(n)] else NatToString(n / 10) + [DigitChar(n % 10)]
  }

  /** Reads a string of decimal digits back as a number. */
  function ParseDigits(s: string): nat
    requires IsDigits(s)
  {
    if s == [] then 0 else ParseDigits(s[..|s| - 1]) * 10 + (s[|s| - 1] as int - '0' as int)
  }

  /** Decimal rendering loses nothing: parsing it gives the number back. */
  lemma {:induction false} ParseNatToString(n: nat)
    ensures ParseDigits(NatToString(n)) == n
    decreases n
  {
    if n >= 10 {
      var s := NatToString(n);
      assert s[..|s| - 1] == NatToString(n / 10);
      ParseNatToString(n / 10);
    }
  }

  /** Different numbers render differently. */
  lemma NatToStringInjective(a: nat, b: nat)
    ensures NatToString(a) == NatToString(b) ==> a == b
  {
    ParseNatToString(a);
    ParseNatToString(b);
  }
}

=== FILE: timers.dfy ===
/**
 * A timer handle kept in a React ref (`useRef(null)`), together with the set
 * of handles the browser still has scheduled for it. Arming clears whatever the
 * ref points to before storing the new handle, which is what keeps at most one
 * callback pending per ref.
 */
module Timers {
  import opened Base

  /** A handle returned by `setTimeout` / `setInterval` and the clock time it is due. */
  datatype Timer = Timer(id: nat, due: int)

  /** `ref`: the ref's current handle; `live`: handles still scheduled; `nextId`: the next fresh handle. */
  datatype Slot = Slot(ref: Option<Timer>, live: set<nat>, nextId: nat)

  /** The ref as first rendered: no handle, nothing scheduled. */
  const Idle: Slot := Slot(None, {}, 1)

  /** Every scheduled handle is the one the ref holds, and handed-out handles are older than `nextId`. */
  predicate Valid(s: Slot) {
    && (forall id :: id in s.live ==> s.ref.Some? && s.ref.value.id == id)
    && (s.ref.Some? ==> s.ref.value.id < s.nextId)
  }

  /** The ref's handle is still scheduled. */
  predicate Pending(s: Slot) {
    s.ref.Some? && s.ref.value.id in s.live
  }

  /** The ref's handle is scheduled and its time has come. */
  predicate DueBy(s: Slot, now: int) {
    Pending(s) && s.ref.value.due <= now
  }

  /** Cancelling the ref's handle without resetting the ref: the ref keeps its handle. */
  function Cancel(s: Slot): (r: Slot)
    ensures r.ref == s.ref && r.nextId == s.nextId && r.live <= s.live
    ensures Valid(s) ==> Valid(r) && r.live == {}
  {
    if s.ref.Some? then s.(live := s.live - {s.ref.value.id}) else s
  }

  /** Clearing the handle and setting `ref.current = null`; also the effect of a timeout's own callback. */
  function Clear(s: Slot): (r: Slot)
    ensures r.ref.None? && r.nextId == s.nextId
    ensures Valid(s) ==> Valid(r) && r.live == {}
  {
    Cancel(s).(ref := None)
  }

  /** Scheduling through a ref: any earlier handle is cancelled and a fresh one, due at `due`, is stored. */
  function Arm(s: Slot, due: int): (r: Slot)
    ensures Pending(r) && r.ref.value.due == due
    ensures s.ref.Some? && Valid(s) ==> r.ref.value.id != s.ref.value.id
    ensures Valid(s) ==> Valid(r) && r.live == {r.ref.value.id}
  {
    Slot(Some(Timer(s.nextId, due)), Cancel(s).live + {s.nextId}, s.nextId + 1)
  }

  /** However the ref is used through these operations, at most one callback is ever pending. */
  lemma AtMostOnePending(s: Slot)
    requires Valid(s)
    ensures |s.live| <= 1
    ensures s.live != {} ==> Pending(s)
  {
    if s.live != {} {
      var x :| x in s.live;
      assert s.live == {s.ref.value.id};
    }
  }
}

=== FILE: toast.dfy ===
/**
 * The transient status message every scanner page shows (`showToastMessage`):
 * one message, visible until its dismissal timer fires; a new message cancels
 * the pending dismissal and replaces it.
 */
module Toasts {
  import opened Timers

  /** How long a toast stays visible when no duration is given, in milliseconds. */
  const DefaultDuration: nat := 3000

  datatype Toast = Toast(message: string, visible: bool, timer: Slot)

  /** The toast as first rendered. */
  const Hidden: Toast := Toast("", false, Idle)

  /** Visible exactly while one dismissal is pending. */
  predicate Valid(t: Toast) {
    Timers.Valid(t.timer) && (t.visible <==> Pending(t.timer))
  }

  /** `showToastMessage(message, duration)` at clock time `now`. */
  function Show(t: Toast, message: string, now: int, duration: nat): (r: Toast)
    ensures r.message == message && r.visible
    ensures Pending(r.timer) && r.timer.ref.value.due == now + duration
    ensures Valid(t) ==> Valid(r) && r.timer.live == {r.timer.ref.value.id}
  {
    Toast(message, true, Arm(t.timer, now + duration))
  }

  /** The clock reaches `now`: a due dismissal fires, hides the toast and nulls the ref. */
  function Advance(t: Toast, now: int): (r: Toast)
    ensures r.message == t.message
    ensures Valid(t) ==> Valid(r)
    ensures Valid(t) ==> (r.visible <==> t.visible && !DueBy(t.timer, now))
  {
    if DueBy(t.timer, now) then Toast(t.message, false, Clear(t.timer)) else t
  }

  /** A dismissal fires at most once: once hidden, later clock advances change nothing. */
  lemma DismissedStaysDismissed(t: Toast, now: int)
    requires Valid(t) && !t.visible
    ensures Advance(t, now) == t
  {
  }

  /**
   * Last write wins: after showing `m1` at `t1` and `m2` at `t2`, every sample at
   * `now >= t2` sees `m2`, visible exactly until `t2 + d2`, whatever `d1` was.
   */
  lemma LastWriteWins(t: Toast, m1: string, t1: int, d1: nat, m2: string, t2: int, d2: nat, now: int)
    requires Valid(t) && t1 <= t2 <= now
    ensures var u := Advance(Show(Advance(Show(t, m1, t1, d1), t2), m2, t2, d2), now);
            u.message == m2 && (u.visible <==> now < t2 + d2) && Valid(u)
  {
  }
}

=== FILE: treasure.dfy ===
/**
 * The treasure-scan page (`QRScanPage`): a decoded treasure code is sent to
 * `POST /treasure/find` at most once per 5000 ms; a find refreshes the
 * participant's stats from `GET /rank/<userId>`, and a stats panel opens on
 * demand and closes itself after 5000 ms.
 */
module TreasurePage {
  import opened Base
  import opened Api
  import opened Nav
  import opened Timers
  import Throttle
  import Toasts

  /** Minimum spacing between requests, in milliseconds. */
  const Interval: nat := 5000

  /** How long the stats panel stays open, in milliseconds. */
  const StatsOpenMs: nat := 5000

  const FoundMessage: string := "보물을 찾았습니다! 🎉"
  const StatsFailed: string := "순위 정보를 불러오는데 실패했습니다."

  /** The `{treasureCount, rank, score}` body of `/rank/<userId>`. */
  datatype Stats = Stats(treasureCount: int, rank: int, score: int)

  /** `statsTimer`: `statsTimerRef`; `noTreasure`: the rank lookup answered 404. */
  datatype Treasure = Treasure(
    userId: nat,
    gate: Throttle.Gate,
    toast: Toasts.Toast,
    statsOpen: bool,
    stats: Option<Stats>,
    noTreasure: bool,
    statsTimer: Slot)

  /** The toast is well formed and the stats panel is open exactly while its auto-close is pending. */
  predicate Valid(p: Treasure) {
    Toasts.Valid(p.toast) && Timers.Valid(p.statsTimer) && (p.statsOpen <==> Pending(p.statsTimer))
  }

  /** Where entering the page leads: back to `/connect`, or the page itself. */
  datatype Landing = Redirect(route: Route) | Opened(page: Treasure)

  /** Entering with `location.state`: without a truthy `userId` and `name` the page redirects. */
  function Enter(loc: Location): (r: Landing)
    ensures r.Redirect? <==> !(TruthyId(loc.userId) && TruthyText(loc.name))
    ensures r.Redirect? ==> r.route == ToConnect
    ensures r.Opened? ==> r.page.userId == loc.userId.value && Valid(r.page) && !r.page.statsOpen
  {
    if loc.userId.None? || loc.userId.value == 0 || loc.name.None? || loc.name.value == "" then
      Redirect(ToConnect)
    else
      Opened(Treasure(loc.userId.value, Throttle.Fresh, Toasts.Hidden, false, None, false, Idle))
  }

  /** The `{userId, treasureCode}` body of `/treasure/find`. */
  datatype FindRequest = FindRequest(userId: nat, treasureCode: string)

  datatype Decoded = Decoded(page: Treasure, request: Option<FindRequest>)

  /** A decode at clock time `now`: dropped within `Interval` of the last request, else stamped and sent. */
  function Decode(p: Treasure, now: int, code: string): (r: Decoded)
    ensures r.request.Some? <==> Throttle.Admits(p.gate, now, Interval)
    ensures r.request.Some? ==> && r.request.value == FindRequest(p.userId, code)
                                && r.page == p.(gate := Throttle.Gate(now))
    ensures r.request.None? ==> r.page == p
  {
    if !Throttle.Admits(p.gate, now, Interval) then Decoded(p, None)
    else Decoded(p.(gate := Throttle.Offer(p.gate, now, Interval)), Some(FindRequest(p.userId, code)))
  }

  /** The page after a `/treasure/find` response, and whether it calls `fetchStats`. */
  datatype Found = Found(page: Treasure, refreshStats: bool)

  /** The `/treasure/find` response arrives at clock time `now`. */
  function OnFind(p: Treasure, resp: Response<()>, now: int): (r: Found)
    ensures r.refreshStats <==> resp.Ok?
    ensures r.page == p.(toast := r.page.toast) && r.page.toast.visible
    ensures Valid(p) ==> Valid(r.page)
    ensures resp.Ok? ==> r.page.toast.message == FoundMessage
    ensures resp.Rejected? ==> r.page.toast.message == OrElse(resp.message, GenericError)
    ensures resp.Failed? ==> r.page.toast.message == NetworkError
  {
    match resp
    case Rejected(_, message) =>
      Found(p.(toast := Toasts.Show(p.toast, OrElse(message, GenericError), now, Toasts.DefaultDuration)), false)
    case Failed(_) =>
      Found(p.(toast := Toasts.Show(p.toast, NetworkError, now, Toasts.DefaultDuration)), false)
    case Ok(_) =>
      Found(p.(toast := Toasts.Show(p.toast, FoundMessage, now, Toasts.DefaultDuration)), true)
  }

  /** The `/rank/<userId>` response of `fetchStats` arrives at clock time `now`. */
  function OnStats(p: Treasure, resp: Response<Stats>, now: int): (r: Treasure)
    ensures r.gate == p.gate && r.statsOpen == p.statsOpen && r.statsTimer == p.statsTimer
    ensures Valid(p) ==> Valid(r)
    ensures resp.Ok? ==> r == p.(stats := Some(resp.body), noTreasure := false)
    ensures resp.Rejected? && resp.status == 404 ==> r == p.(stats := None, noTreasure := true)
    ensures resp.Rejected? && resp.status != 404 ==> r == p
    ensures resp.Failed? ==> && r.stats == p.stats && r.noTreasure == p.noTreasure
                             && r.toast.visible && r.toast.message == StatsFailed
  {
    match resp
    case Ok(stats) => p.(noTreasure := false, stats := Some(stats))
    case Rejected(status, _) =>
      if status == 404 then p.(noTreasure := true, stats := None) else p
    case Failed(_) =>
      p.(toast := Toasts.Show(p.toast, StatsFailed, now, Toasts.DefaultDuration))
  }

  /** The page after a click on the stats button, and whether it calls `fetchStats`. */
  datatype Clicked = Clicked(page: Treasure, fetchStats: bool)

  /**
   * `handleStatsClick` at clock time `now`, followed by the effect on
   * `isStatsOpen`: opening fetches and arms the auto-close (clearing any earlier
   * one); closing clears the pending auto-close.
   */
  function ClickStats(p: Treasure, now: int): (r: Clicked)
    ensures r.fetchStats <==> !p.statsOpen
    ensures r.page.statsOpen == !p.statsOpen
    ensures r.page == p.(statsOpen := r.page.statsOpen, statsTimer := r.page.statsTimer)
    ensures Valid(p) ==> Valid(r.page)
    ensures r.page.statsOpen ==> DueBy(r.page.statsTimer, now + StatsOpenMs) && !DueBy(r.page.statsTimer, now + StatsOpenMs - 1)
    ensures Valid(p) && r.page.statsOpen ==> r.page.statsTimer.live == {r.page.statsTimer.ref.value.id}
  {
    if !p.statsOpen then
      Clicked(p.(statsOpen := true, statsTimer := Arm(p.statsTimer, now + StatsOpenMs)), true)
    else
      Clicked(p.(statsOpen := false, statsTimer := Cancel(p.statsTimer)), false)
  }

  /** The clock reaches `now`: a due toast dismissal and a due auto-close fire. */
  function Advance(p: Treasure, now: int): (r: Treasure)
    ensures r.gate == p.gate && r.stats == p.stats && r.noTreasure == p.noTreasure
    ensures r.toast.message == p.toast.message && (r.toast.visible ==> p.toast.visible)
    ensures Valid(p) ==> (r.toast.visible <==> p.toast.visible && !DueBy(p.toast.timer, now))
    ensures Valid(p) ==> Valid(r)
    ensures Valid(p) ==> (r.statsOpen <==> p.statsOpen && !DueBy(p.statsTimer, now))
  {
    var t := Toasts.Advance(p.toast, now);
    if DueBy(p.statsTimer, now) then p.(toast := t, statsOpen := false, statsTimer := Clear(p.statsTimer))
    else p.(toast := t)
  }

  /** Opened at `t` and left alone, the stats panel is open exactly until `t + 5000`. */
  lemma AutoClose(p: Treasure, t: int, now: int)
    requires Valid(p) && !p.statsOpen
    ensures var q := Advance(ClickStats(p, t).page, now);
            Valid(q) && (q.statsOpen <==> now < t + StatsOpenMs)
  {
  }

  /** A 409 with message "already found" shows that message and does not refresh the stats. */
  lemma AlreadyFound(p: Treasure, now: int)
    ensures var r := OnFind(p, Rejected(409, "already found"), now);
            !r.refreshStats && r.page.toast.message == "already found"
  {
  }
}
